=== FILE: README.md ===
# LayConnector core, modelled in Dafny

LayConnector relays TikTok live comments into a Twitch chat. For every
comment it does two things:
- It sends a relay line `nickname: comment`.
- It checks each configured action. An action is a trigger plus a list of
  response templates. When the trigger starts the comment, every response
  is rendered and sent. The text after the trigger, stripped, is the user
  input. Rendering does two successive replace-all passes: `{userinput}`
  first, then `{username}`.

The actions are edited in a dialog. The dialog takes the responses as one
`;`-separated line and refuses an empty trigger or an empty response list.
A first-run wizard collects the three account identifiers.

The model has these modules:
- `Text`: Python's `isspace`, `strip`, `startswith`, `split`, `join` and
  `replace`, as functions on `string`. They are total, except that split and
  replace need a non-empty pattern.
- `Template`: rendering.
- `Dispatch`: the comment handler. It is given once as a function,
  `Outgoing`, and once as the handler's nested loops, `OnComment`, which is
  proved equal to `Outgoing`.
- `ActionDialog`: response parsing and the dialog's OK button.
- `ActionList`: the settings window's Add, Edit and Delete.
- `Setup`: the wizard's save.
- `Config`: the stored records.

The Twitch channel is a boolean `hasChannel`. Sending a message is
appending it to the output sequence.

Two details of `main.py` are easy to misread:
- The startup test (main.py:234) asks only whether an identifier is the
  empty string. It does not strip, unlike the wizard. So a blank identifier
  saved by hand reaches the dashboard, while the wizard would refuse it
  (`Setup.StartupAcceptsBlankIdentifier`).
- An action record is read through its `trigger` and `responses` keys only.
  The dialog refuses an empty response list, so every action saved through
  the dialog has at least one response.

## Model

| member | source | states |
|---|---|---|
| Dispatch.Outgoing | main.py:211-224 | with no channel nothing is sent; with a channel the first message is exactly `nickname + ": " + comment` |
| Dispatch.OnComment | main.py:211-224 | the handler's nested loops send exactly `Outgoing`: the relay line, then each firing action's rendered responses in list order |
| Dispatch.HandleAction | main.py:218-224 | one pass of the outer loop: a firing action sends its responses rendered with the stripped text after the trigger, and any other action sends nothing |
| Dispatch.SendResponses | main.py:220-224 | the inner loop sends every response, rendered, in stored order, and only when there is a channel |
| Dispatch.HandlerStep | main.py:217-224 | one outer-loop round extends what was sent by exactly the next action's replies |
| Dispatch.HandlerStart | main.py:213-216 | before the outer loop only the relay line, if anything, has been sent |
| Dispatch.Relay | main.py:213 | the relay line is the nickname, `": "`, then the comment as typed; its meaning is carried by `Outgoing`'s contract |
| Dispatch.Fires | main.py:218 | an action fires when the comment starts with its trigger; its meaning is carried by `FiresIsPrefix` |
| Dispatch.ActionReplies | main.py:218-224 | the messages one action sends for a comment: its responses rendered when it fires, nothing otherwise; its meaning is carried by `HandleAction`, `RepliesStep` and `RepliesAreMatchBlocks` |
| Dispatch.Replies | main.py:217-224 | the response messages of all actions, action after action in list order; its meaning is carried by `RepliesStep`, `RepliesAreMatchBlocks` and `OutgoingAfterAdd` |
| Dispatch.FiresIsPrefix | main.py:218 | an action fires iff its trigger equals the comment's first `len(trigger)` characters: no trimming, no case folding |
| Dispatch.MatchesSound | main.py:217-218 | every match is a firing action, recorded at its own position in the list |
| Dispatch.MatchesOrdered | main.py:217-218 | matches come in strictly increasing list position |
| Dispatch.MatchesComplete | main.py:217-218 | every firing action is matched, not only the first one |
| Dispatch.UserInput | main.py:219 | the remainder of the comment after the trigger, stripped; its meaning is carried by `UserInputShape` and `UserInputOfPadded` |
| Dispatch.UserInputShape | main.py:219 | the user input is stripped and no longer than the remainder after the trigger; a trigger longer than the comment leaves nothing, as the Python slice does |
| Dispatch.UserInputOfPadded | main.py:219 | the user input is the remainder after the trigger with surrounding white space removed |
| Dispatch.RenderAllAt | main.py:220-222 | the `j`-th rendered message is the `j`-th template rendered with the same bindings |
| Dispatch.RepliesStep | main.py:217-224 | the replies of the first `i + 1` actions are those of the first `i`, followed by action `i`'s own |
| Dispatch.OutgoingAfterAdd | main.py:217-224 | appending an action leaves all earlier messages alone and adds only its replies at the end |
| Dispatch.RepliesAreMatchBlocks | main.py:217-224 | the replies are the matches' rendered response blocks, match after match |
| Dispatch.FiringBlock | main.py:220-224 | a new match adds its rendered responses after the earlier blocks |
| Dispatch.BlocksLength | main.py:220-224 | the blocks hold exactly one message per response of the matches |
| Dispatch.OutgoingCount | main.py:213-224 | with a channel, 1 + (sum of the firing actions' response counts) messages are sent |
| Dispatch.BlocksAt | main.py:217-224 | the `j`-th response of the `k`-th match is at offset (responses of earlier matches) + `j` in the blocks |
| Dispatch.BlocksAtEarlier | main.py:217-224 | a response of a match before the last keeps that offset once the last match's block is added |
| Dispatch.BlocksAtLast | main.py:220-224 | the last match's `j`-th response sits right after the blocks of all earlier matches, at offset + `j` |
| Dispatch.OutgoingLayout | main.py:213-224 | each firing action's responses are sent contiguously and in stored order, right after those of earlier firing actions |
| Dispatch.RepliesOfOne | main.py:218-222 | a firing action with one response contributes exactly that response, rendered |
| Dispatch.OutgoingOfOne | main.py:211-224 | one firing action with one response: the relay line, then that response rendered |
| Dispatch.RequestInput | main.py:218-219 | `!bsr abc` fires on `!bsr abc rest`, and the user input is `rest` |
| Dispatch.RequestRender | main.py:221-222 | `ok {userinput}` with user input `rest` renders to `ok rest` |
| Dispatch.ScenarioRequest | main.py:211-224 | comment `!bsr abc rest` with action `!bsr abc` -> `ok {userinput}` sends the relay line, then `ok rest` |
| Template.Render | main.py:221-222 | `{userinput}` is replaced first, then `{username}` in the result; its meaning is carried by the `Render*` lemmas below |
| Template.RenderPlain | main.py:221-222 | a template with neither placeholder is sent unchanged, and unknown placeholders pass through |
| Template.RenderUserName | main.py:221-222 | `{username}` renders to the nickname for every user input |
| Template.RenderUserInput | main.py:221-222 | `{userinput}` renders to the user input with any `{username}` in it replaced by the nickname |
| Template.RenderInjectedUserName | main.py:221-222 | a commenter typing `{username}` as input gets the nickname back: the second pass sees the first pass's output |
| Text.IsSpace | main.py:219 | the characters Python's `str.isspace` accepts: tab to carriage return, the separators 0x1C-0x1F, space, and the Unicode white-space code points; its meaning for `strip` is carried by the `Strip*` lemmas |
| Text.Strip | main.py:219 | the stripped text is no longer than the input and neither of its ends is white space |
| Text.StripExact | main.py:219 | the stripped text sits inside the input with only white space on both sides, and is empty iff the input is all white space |
| Text.StripLeftExact | main.py:219 | the leading cut is all white space and what remains does not start with white space |
| Text.StripRightExact | main.py:219 | the trailing cut is all white space and what remains does not end with white space |
| Text.StripPadded | main.py:219 | stripping a trimmed text padded on both sides with white space gives the text back |
| Text.StripLeftPadded | main.py:219 | the left strip removes exactly a white-space padding in front of a text not starting with white space |
| Text.StripRightPadded | main.py:219 | the right strip removes exactly a white-space padding after a text not ending with white space |
| Text.StripIdempotent | main.py:66-68 | stripping twice is stripping once |
| Text.StripKeepsCharacters | main.py:103 | stripping introduces no character that was not in the input |
| Text.StartsWith | main.py:218 | Python's `str.startswith`, exact and case-sensitive; its meaning is carried by `StartsWithIsPrefix` |
| Text.StartsWithIsPrefix | main.py:218 | `startswith` agrees with comparing the first `len(prefix)` characters |
| Text.Join | main.py:93 | the joined text starts with the first piece, and when there is a second piece the whole separator follows the first; `SplitThenJoin` makes join the inverse of split |
| Text.SplitThenJoin | main.py:93-103 | joining the pieces of a split with the same separator rebuilds the input |
| Text.SplitWithoutSeparator | main.py:103 | a text without the separator character splits into itself |
| Text.SplitPiecesAvoidSeparator | main.py:103 | no piece of a split on `c` contains `c` |
| Text.SplitPiecesAvoidPattern | main.py:221-222 | no piece of a split contains the separator, whatever its length: every occurrence is cut out, not only the first |
| Text.SplitFirstPiece | main.py:221-222 | the first piece of a split is a prefix of the text before which no occurrence of the separator starts |
| Text.SplitAroundSeparator | main.py:103 | splitting `a + c + b` on `c` gives the pieces of `a` followed by those of `b` |
| Text.Replace | main.py:221-222 | replacing a pattern by a text of the same length keeps the length; its meaning is `ReplaceIsJoinOfSplit` with `SplitPiecesAvoidPattern` and `SplitThenJoin` |
| Text.ReplaceIsJoinOfSplit | main.py:221-222 | `s.replace(p, r)` equals `r.join(s.split(p))` |
| Text.ReplaceWithItself | main.py:221-222 | replacing a pattern by itself changes nothing |
| Text.ReplaceChangesOnlyOccurrences | main.py:221-222 | a text that does not contain the pattern comes back unchanged |
| Text.ReplaceWhole | main.py:221-222 | the pattern alone becomes the replacement |
| Text.ReplaceSkipsChar | main.py:221-222 | a character that cannot start the pattern is copied through |
| Text.ReplacePlainPrefix | main.py:221-222 | a prefix free of the pattern's first character is copied through unchanged |
| ActionDialog.KeepNonBlankClean | main.py:103 | every kept response is non-empty, stripped, and free of `;` when the pieces were |
| ActionDialog.KeepNonBlankConcat | main.py:103 | filtering distributes over concatenation, so the pieces keep their order |
| ActionDialog.ParseResponses | main.py:103 | every parsed response is non-empty, has no surrounding white space and contains no `;` |
| ActionDialog.ParseAroundSeparator | main.py:103 | the responses of `a;b` are those of `a` followed by those of `b`: input order is kept |
| ActionDialog.ParseOnePiece | main.py:103 | a field without `;` gives its stripped text as the one response, or no response when that text is blank |
| ActionDialog.ParseClean | main.py:103 | a single clean response parses to exactly itself |
| ActionDialog.ParseBlank | main.py:103 | an empty field holds no response |
| ActionDialog.ParseJoined | main.py:93-103 | the dialog's `;`-joined display of stored responses parses back to exactly those responses |
| ActionDialog.ParseJoinedStep | main.py:93-103 | a clean response followed by `;` in front of a text adds exactly that response in front of the text's responses |
| ActionDialog.Accept | main.py:101-108 | refused, with the warning, iff the stripped trigger or the parsed responses are empty; otherwise the action is valid and only trigger and responses change |
| ActionDialog.AcceptUnedited | main.py:89-108 | pressing OK on an unedited dialog for a stored valid action gives back the very same action |
| ActionDialog.AcceptRefusesBlank | main.py:89-106 | the blank dialog opened by Add cannot be accepted as it is |
| ActionList.AddAction | main.py:141-145 | an accepted action is appended; the list grows by one and the old entries keep their places; a cancel changes nothing |
| ActionList.EditAction | main.py:147-155 | an accepted edit replaces only the selected entry; no selection or a cancel changes nothing |
| ActionList.DeleteAction | main.py:157-162 | the selected entry is removed and the others keep their order; no selection changes nothing |
| ActionList.DeleteUndoesAdd | main.py:141-162 | deleting the entry just added restores the list |
| ActionList.EditUneditedKeepsList | main.py:147-155 | editing an entry and pressing OK without changes leaves the whole list as it was |
| ActionList.EditsKeepValidity | main.py:141-162 | a list of valid actions stays valid under Add, Edit and Delete with dialog outcomes |
| ActionList.AddKeepsValidity | main.py:141-145 | appending a valid action keeps every entry valid |
| ActionList.EditKeepsValidity | main.py:147-155 | replacing an entry by a valid action keeps every entry valid |
| ActionList.DeleteKeepsValidity | main.py:157-162 | removing an entry keeps every entry valid |
| Setup.SaveSetup | main.py:65-78 | saved iff all three stripped fields are non-empty, with the stripped values and no actions, and never sends the next start back to the wizard; otherwise the warning |
| Setup.SaveSetupStable | main.py:65-78 | saving the wizard again with the stored values gives the same configuration |
| Config.NeedsSetup | main.py:234 | the wizard is shown iff some identifier is the empty string; a blank identifier passes; its meaning is carried by `StartupAcceptsBlankIdentifier` and `SaveSetup` |
| Setup.StartupAcceptsBlankIdentifier | main.py:234 | the startup test lets a blank identifier through while the wizard refuses it |

## Left out

- Qt widgets, layouts and message boxes. The dialog, wizard and settings
  window appear only through their validation and list logic. A warning box
  is the `Failure` value that carries its text.
- The dialog's modal loop. Cancelling is an outcome of `None`. An OK refused
  with a warning leaves the dialog open, and the user may then cancel, so the
  list edits take `Accept(...).ToOption()`.
- `ensure_config` and `save_config` (main.py:22-38). These are file I/O. The
  configuration is a plain value.
- `webbrowser.open` (main.py:57). This is an OS side effect.
- The threads, `asyncio`, the TikTok client and the twitchio bot
  (main.py:194-229). The channel lookup is the boolean `hasChannel`. A send
  is appending to the output. A send that fails inside the client is not
  modelled.
- The list label in `refresh_list` (main.py:134-139). It is display only.
- `SettingsWindow.on_save` and `on_settings_updated` (main.py:164-167,
  191-192). `on_save` writes the configuration file and hands the same
  configuration object back; neither changes the action list.
- The action list is shared and live. The settings window is given the
  dashboard's own configuration object (main.py:188), and Add, Edit and
  Delete change its `actions` list in place (main.py:144, 154, 161). So an
  edit reaches the running bot at once, before "Save & Close" and without it.
  An edit can even land while `on_comment` is waiting on a send inside its
  loop over that list (main.py:217-224): a delete can make the loop skip an
  action, and an append can add one. The model takes the action list as one
  fixed value for the whole of a comment. The list edits are modelled as
  functions from the old list to the new one, with no interleaving.
- Extra keys of a stored action record. They are the `others` map of string
  values. The dialog copies them through untouched; their values are not
  interpreted.
- `str.replace` with an empty pattern and `str.split` with an empty
  separator. The code never calls either, so `Replace` and `SplitOn` require
  a non-empty pattern.
- Dispatch.Matches: its own contract states only the length bound. What the
  matches are is stated by `MatchesSound`, `MatchesOrdered` and
  `MatchesComplete`.
- ActionDialog.KeepNonBlank: its own contract states only the length bound.
  Cleanliness is stated by `KeepNonBlankClean` and order by
  `KeepNonBlankConcat`.
- Text.SplitOn: its own contract states only that there is at least one
  piece. Its laws are the `Split*` lemmas and `ReplaceIsJoinOfSplit`.
- Dispatch.RenderAll: its own contract states only that there is one
  message per template. Which message is stated by `RenderAllAt`.
- Template.Render: it has no contract of its own. Its meaning is stated by
  `RenderPlain`, `RenderUserName`, `RenderUserInput` and
  `RenderInjectedUserName`, and by the `Replace` lemmas it is built from.
- Text.Replace: its own contract states only the length law. That every
  occurrence is replaced is `ReplaceIsJoinOfSplit` together with
  `SplitPiecesAvoidPattern`.
- Text.Join: its own contract states only the first piece and the separator
  after it. Join is pinned down as the inverse of split by `SplitThenJoin`.
- Dispatch.UserInput: it has no contract of its own. That the input is
  stripped and bounded is stated by `UserInputShape`. Which text it is is
  stated by `UserInputOfPadded`.
- Dispatch.Relay: it has no contract of its own. That the relay line is
  exactly `nickname + ": " + comment`, sent first and only with a channel,
  is stated by `Outgoing`'s own contract.
- Dispatch.Fires: it has no contract of its own. That firing is the
  untrimmed, case-sensitive slice comparison is stated by `FiresIsPrefix`.
- Text.StartsWith: it has no contract of its own. That it agrees with the
  slice test `s[:len(prefix)] == prefix` is stated by `StartsWithIsPrefix`.
- Dispatch.ActionReplies: it has no contract of its own. What one action
  sends is stated by `HandleAction`, `RepliesStep` and
  `RepliesAreMatchBlocks`.
- Dispatch.Replies: it has no contract of its own. Its order and contents
  are stated by `RepliesStep`, `RepliesAreMatchBlocks` and
  `OutgoingAfterAdd`.
- Config.NeedsSetup: it has no contract of its own. That it looks only at
  emptiness is stated by `StartupAcceptsBlankIdentifier`, and that a saved
  wizard never triggers it is stated by `SaveSetup`.
- Text.IsSpace: it has no contract of its own. Its use in `strip` is stated
  by `StripExact`, `StripLeftExact`, `StripRightExact` and `StripPadded`.
- ActionDialog.ParseResponses: its own contract states only the shape of
  each response. Which responses are kept is stated by `ParseOnePiece`
  (one piece) and `ParseAroundSeparator` (pieces in order).

=== FILE: action_list.dfy ===
/** The settings window's Add, Edit and Delete buttons, as edits of the
    ordered action list. The dialog outcome is `None` when it was cancelled;
    the selection is `None` when no row of the list is selected. */
module ActionList {
  import opened Text
  import opened Wrappers
  import opened Config
  import opened ActionDialog

  /** "Add": an accepted action goes to the end of the list. */
  function AddAction(actions: seq<Action>, outcome: Option<Action>): (r: seq<Action>)
    ensures outcome.None? ==> r == actions
    ensures outcome.Some? ==> |r| == |actions| + 1 && r[..|actions|] == actions && r[|actions|] == outcome.value
  {
    match outcome
    case None => actions
    case Some(a) => actions + [a]
  }

  /** "Edit": an accepted action takes the place of the selected one and no
      other entry changes. */
  function EditAction(actions: seq<Action>, selected: Option<nat>, outcome: Option<Action>): (r: seq<Action>)
    requires selected.Some? ==> selected.value < |actions|
    ensures |r| == |actions|
    ensures selected.None? || outcome.None? ==> r == actions
    ensures selected.Some? && outcome.Some? ==>
      && r[selected.value] == outcome.value
      && forall j :: 0 <= j < |r| && j != selected.value ==> r[j] == actions[j]
  {
    if selected.None? || outcome.None? then actions
    else actions[selected.value := outcome.value]
  }

  /** "Delete": the selected entry is removed and the others keep their order. */
  function DeleteAction(actions: seq<Action>, selected: Option<nat>): (r: seq<Action>)
    requires selected.Some? ==> selected.value < |actions|
    ensures selected.None? ==> r == actions
    ensures selected.Some? ==>
      && |r| == |actions| - 1
      && (forall j :: 0 <= j < selected.value ==> r[j] == actions[j])
      && (forall j :: selected.value <= j < |r| ==> r[j] == actions[j + 1])
  {
    match selected
    case None => actions
    case Some(i) => actions[..i] + actions[i + 1..]
  }

  predicate AllValid(actions: seq<Action>)
  {
    forall j :: 0 <= j < |actions| ==> IsValidAction(actions[j])
  }

  /** Deleting the entry just added restores the list. */
  lemma DeleteUndoesAdd(actions: seq<Action>, a: Action)
    ensures DeleteAction(AddAction(actions, Some(a)), Some(|actions|)) == actions
  {
    var added := AddAction(actions, Some(a));
    assert added[..|actions|] == actions;
    assert added[|actions| + 1..] == [];
  }

  /** Editing an entry and pressing OK without changing anything leaves the
      whole list as it was. */
  lemma EditUneditedKeepsList(actions: seq<Action>, i: nat)
    requires i < |actions| && IsValidAction(actions[i])
    ensures EditAction(actions, Some(i),
              Accept(actions[i], actions[i].trigger, Join(actions[i].responses, [Separator])).ToOption())
            == actions
  {
    AcceptUnedited(actions[i]);
  }

  /** Lists built only through the dialog stay valid under all three edits. */
  lemma EditsKeepValidity(actions: seq<Action>, selected: Option<nat>, triggerText: string, responsesText: string, base: Action)
    requires AllValid(actions)
    requires selected.Some? ==> selected.value < |actions|
    ensures var outcome := Accept(base, triggerText, responsesText).ToOption();
      && AllValid(AddAction(actions, outcome))
      && AllValid(EditAction(actions, selected, outcome))
      && AllValid(DeleteAction(actions, selected))
  {
    var outcome := Accept(base, triggerText, responsesText).ToOption();
    assert outcome.Some? ==> IsValidAction(outcome.value);
    AddKeepsValidity(actions, outcome);
    EditKeepsValidity(actions, selected, outcome);
    DeleteKeepsValidity(actions, selected);
  }

  lemma AddKeepsValidity(actions: seq<Action>, outcome: Option<Action>)
    requires AllValid(actions)
    requires outcome.Some? ==> IsValidAction(outcome.value)
    ensures AllValid(AddAction(actions, outcome))
  {
    var r := AddAction(actions, outcome);
    forall j | 0 <= j < |r| ensures IsValidAction(r[j]) {
      if j < |actions| {
        assert r[j] == r[..|actions|][j];
      }
    }
  }

  lemma EditKeepsValidity(actions: seq<Action>, selected: Option<nat>, outcome: Option<Action>)
    requires AllValid(actions)
    requires selected.Some? ==> selected.value < |actions|
    requires outcome.Some? ==> IsValidAction(outcome.value)
    ensures AllValid(EditAction(actions, selected, outcome))
  {
  }

  lemma DeleteKeepsValidity(actions: seq<Action>, selected: Option<nat>)
    requires AllValid(actions)
    requires selected.Some? ==> selected.value < |actions|
    ensures AllValid(DeleteAction(actions, selected))
  {
  }
}

=== FILE: config.dfy ===
/** The persisted configuration the bot runs from: the three account
    identifiers and the ordered list of trigger actions. */
module Config {

  /** One configured action. `others` stands for any further keys of the
      stored record; the action dialog copies them through untouched. */
  datatype Action = Action(trigger: string, responses: seq<string>, others: map<string, string>)

  datatype Settings = Settings(
    tiktokUsername: string,
    twitchUsername: string,
    twitchToken: string,
    actions: seq<Action>)

  /** The blank action the dialog starts from when adding. */
  const NewAction: Action := Action("", [], map[])

  /** The startup test: the setup wizard is shown instead of the dashboard
      when any identifier is the empty string. Only emptiness counts here;
      a value made of blanks passes. */
  predicate NeedsSetup(cfg: Settings)
  {
    |cfg.tiktokUsername| == 0 || |cfg.twitchUsername| == 0 || |cfg.twitchToken| == 0
  }
}

=== FILE: dialog.dfy ===
/** The add/edit action dialog: the responses field is one line in which the
    responses are separated by `;`, and OK validates before closing. */
module ActionDialog {
  import opened Text
  import opened Wrappers
  import opened Config

  const Separator: char := ';'
  const InvalidActionWarning: string := "Trigger and at least one response required"

  /** A response as the dialog stores it: non-empty, stripped, free of `;`. */
  predicate IsCleanResponse(r: string)
  {
    |r| > 0 && IsTrimmed(r) && Separator !in r
  }

  /** An action as the dialog stores it: a non-empty stripped trigger and at
      least one clean response. */
  predicate IsValidAction(a: Action)
  {
    && |a.trigger| > 0 && IsTrimmed(a.trigger)
    && |a.responses| > 0
    && forall j :: 0 <= j < |a.responses| ==> IsCleanResponse(a.responses[j])
  }

  /** Strips every piece and drops those left empty, keeping the order. */
  function KeepNonBlank(pieces: seq<string>): (rs: seq<string>)
    ensures |rs| <= |pieces|
    decreases |pieces|
  {
    if |pieces| == 0 then []
    else
      var t := Strip(pieces[0]);
      var rest := KeepNonBlank(pieces[1..]);
      if t == [] then rest else [t] + rest
  }

  /** What survives is stripped and non-empty; since stripping adds no
      character, pieces free of `;` give responses free of `;`. */
  lemma {:induction false} KeepNonBlankClean(pieces: seq<string>)
    requires forall k :: 0 <= k < |pieces| ==> Separator !in pieces[k]
    ensures forall j :: 0 <= j < |KeepNonBlank(pieces)| ==> IsCleanResponse(KeepNonBlank(pieces)[j])
    decreases |pieces|
  {
    if |pieces| > 0 {
      var t := Strip(pieces[0]);
      var rest := KeepNonBlank(pieces[1..]);
      KeepNonBlankClean(pieces[1..]);
      if t != [] {
        assert IsCleanResponse(t) by {
          StripKeepsCharacters(pieces[0]);
        }
        forall j | 0 <= j < |[t] + rest| ensures IsCleanResponse(([t] + rest)[j]) {
          if j > 0 {
            assert ([t] + rest)[j] == rest[j - 1];
          }
        }
      }
    }
  }

  /** The responses field parsed: split on `;`, each piece stripped, empty
      pieces dropped. */
  function ParseResponses(text: string): (rs: seq<string>)
    ensures forall j :: 0 <= j < |rs| ==> IsCleanResponse(rs[j])
  {
    SplitPiecesAvoidSeparator(text, Separator);
    KeepNonBlankClean(SplitOn(text, [Separator]));
    KeepNonBlank(SplitOn(text, [Separator]))
  }

  /** Pressing OK with the given field texts on a dialog opened for `current`.
      It is refused exactly when the stripped trigger or the parsed response
      list is empty; otherwise only the trigger and the responses change. */
  function Accept(current: Action, triggerText: string, responsesText: string): (r: Result<Action, string>)
    ensures r.Success? <==> Strip(triggerText) != [] && ParseResponses(responsesText) != []
    ensures r.Failure? ==> r.error == InvalidActionWarning
    ensures r.Success? ==>
      && IsValidAction(r.value)
      && r.value.trigger == Strip(triggerText)
      && r.value.responses == ParseResponses(responsesText)
      && r.value.others == current.others
  {
    var trigger := Strip(triggerText);
    var responses := ParseResponses(responsesText);
    if |trigger| == 0 || |responses| == 0 then Failure(InvalidActionWarning)
    else Success(current.(trigger := trigger, responses := responses))
  }

  // ---------------------------------------------------------------------------

  lemma {:induction false} KeepNonBlankConcat(xs: seq<string>, ys: seq<string>)
    ensures KeepNonBlank(xs + ys) == KeepNonBlank(xs) + KeepNonBlank(ys)
    decreases |xs|
  {
    if |xs| == 0 {
      assert xs + ys == ys;
    } else {
      assert (xs + ys)[0] == xs[0];
      assert (xs + ys)[1..] == xs[1..] + ys;
      KeepNonBlankConcat(xs[1..], ys);
      var t := Strip(xs[0]);
      if |t| == 0 {
      } else {
        assert KeepNonBlank(xs) == [t] + KeepNonBlank(xs[1..]);
      }
    }
  }

  /** Parsing respects `;`: the responses of `a;b` are those of `a` followed
      by those of `b`, so parsed responses keep the order they were typed in. */
  lemma ParseAroundSeparator(a: string, b: string)
    ensures ParseResponses(a + [Separator] + b) == ParseResponses(a) + ParseResponses(b)
  {
    SplitAroundSeparator(a, Separator, b);
    KeepNonBlankConcat(SplitOn(a, [Separator]), SplitOn(b, [Separator]));
  }

  /** A single clean response parses to itself. */
  lemma ParseClean(r: string)
    requires IsCleanResponse(r)
    ensures ParseResponses(r) == [r]
  {
    SplitWithoutSeparator(r, Separator);
    StripPadded("", r, "");
    assert "" + r + "" == r;
    assert [r][1..] == [];
  }

  /** The dialog shows stored responses joined with `;`; parsing that text
      gives back exactly the stored list. */
  lemma {:induction false} ParseJoined(rs: seq<string>)
    requires forall j :: 0 <= j < |rs| ==> IsCleanResponse(rs[j])
    ensures ParseResponses(Join(rs, [Separator])) == rs
    decreases |rs|
  {
    if |rs| == 0 {
      ParseBlank();
    } else if |rs| == 1 {
      ParseClean(rs[0]);
    } else {
      ParseJoined(rs[1..]);
      JoinFirst(rs, [Separator]);
      ParseJoinedStep(rs[0], Join(rs[1..], [Separator]), rs[1..]);
      HeadTail(rs);
    }
  }

  /** A clean response put in front of a `;`-separated text adds exactly
      that response in front of the text's responses. */
  lemma ParseJoinedStep(r: string, rest: string, tail: seq<string>)
    requires IsCleanResponse(r) && ParseResponses(rest) == tail
    ensures ParseResponses(r + [Separator] + rest) == [r] + tail
  {
    ParseClean(r);
    ParseAroundSeparator(r, rest);
  }

  /** A field without `;` holds its stripped text as the one response, or
      nothing when that text is blank: each piece is stripped, not dropped
      for its padding. */
  lemma ParseOnePiece(p: string)
    requires Separator !in p
    ensures ParseResponses(p) == if Strip(p) == [] then [] else [Strip(p)]
  {
    SplitWithoutSeparator(p, Separator);
    assert [p][1..] == [];
  }

  /** An empty field holds no response. */
  lemma ParseBlank()
    ensures ParseResponses("") == []
  {
    assert SplitOn("", [Separator]) == [""];
    assert Strip("") == [];
  }

  /** Opening the dialog on a stored action and pressing OK without edits
      accepts it and gives back the very same action. */
  lemma AcceptUnedited(a: Action)
    requires IsValidAction(a)
    ensures Accept(a, a.trigger, Join(a.responses, [Separator])) == Success(a)
  {
    StripPadded("", a.trigger, "");
    assert "" + a.trigger + "" == a.trigger;
    ParseJoined(a.responses);
  }

  /** The blank dialog opened by "Add" cannot be accepted as it is. */
  lemma AcceptRefusesBlank()
    ensures Accept(NewAction, NewAction.trigger, Join(NewAction.responses, [Separator])).Failure?
  {
    assert Strip("") == [];
  }
}

=== FILE: dispatch.dfy ===
/** What the bot sends to the Twitch channel for one TikTok comment: the
    relay line, then the rendered responses of every action whose trigger
    starts the comment, in action-list order. */
module Dispatch {
  import opened Text
  import opened Template
  import opened Config

  /** The relay line that repeats the comment in chat. */
  function Relay(nickname: string, comment: string): string
  {
    nickname + ": " + comment
  }

  /** An action fires when its trigger is a literal, case-sensitive prefix of
      the untrimmed comment. */
  predicate Fires(comment: string, a: Action)
  {
    StartsWith(comment, a.trigger)
  }

  /** Firing is the plain slice comparison on the comment as typed: no
      trimming, no case folding. */
  lemma FiresIsPrefix(comment: string, a: Action)
    ensures Fires(comment, a) <==> |a.trigger| <= |comment| && comment[..|a.trigger|] == a.trigger
  {
    StartsWithIsPrefix(comment, a.trigger);
  }

  /** What the commenter wrote after the trigger, stripped. Like Python's
      slice `comment[len(trigger):]`, a trigger longer than the comment leaves
      nothing. */
  function UserInput(comment: string, trigger: string): string
  {
    if |trigger| <= |comment| then Strip(comment[|trigger|..]) else ""
  }

  /** The user input has no surrounding white space and is no longer than
      what follows the trigger; a trigger longer than the comment leaves
      nothing. */
  lemma UserInputShape(comment: string, trigger: string)
    ensures IsTrimmed(UserInput(comment, trigger))
    ensures |trigger| <= |comment| ==> |UserInput(comment, trigger)| <= |comment| - |trigger|
    ensures |trigger| > |comment| ==> UserInput(comment, trigger) == ""
  {
  }

  /** Every template of one action rendered with the same bindings, in order. */
  function RenderAll(templates: seq<string>, userInput: string, nickname: string): (out: seq<string>)
    ensures |out| == |templates|
    decreases |templates|
  {
    if |templates| == 0 then []
    else [Render(templates[0], userInput, nickname)] + RenderAll(templates[1..], userInput, nickname)
  }

  lemma {:induction false} RenderAllAt(templates: seq<string>, userInput: string, nickname: string, j: nat)
    requires j < |templates|
    ensures RenderAll(templates, userInput, nickname)[j] == Render(templates[j], userInput, nickname)
    decreases j
  {
    if j > 0 {
      RenderAllAt(templates[1..], userInput, nickname, j - 1);
    }
  }

  /** The messages one action contributes to a comment. */
  function ActionReplies(nickname: string, comment: string, a: Action): seq<string>
  {
    if Fires(comment, a) then RenderAll(a.responses, UserInput(comment, a.trigger), nickname) else []
  }

  /** The response messages of all actions, taken in list order. */
  function Replies(nickname: string, comment: string, actions: seq<Action>): seq<string>
    decreases |actions|
  {
    if |actions| == 0 then []
    else
      var n := |actions| - 1;
      Replies(nickname, comment, actions[..n]) + ActionReplies(nickname, comment, actions[n])
  }

  /** Everything sent to chat for one comment. With no channel to send to,
      nothing is sent; otherwise the relay line comes first. */
  function Outgoing(nickname: string, comment: string, actions: seq<Action>, hasChannel: bool): (out: seq<string>)
    ensures !hasChannel ==> out == []
    ensures hasChannel ==> |out| >= 1 && out[0] == nickname + ": " + comment
  {
    if hasChannel then [Relay(nickname, comment)] + Replies(nickname, comment, actions) else []
  }

  // ---------------------------------------------------------------------------
  // The trigger matcher, stated on its own

  /** One firing action: its position in the list and the action. The user
      input it is rendered with is `UserInput(comment, action.trigger)`. */
  datatype Match = Match(index: nat, action: Action)

  /** The firing actions of a comment, scanning the list in order. */
  function Matches(comment: string, actions: seq<Action>): (ms: seq<Match>)
    ensures |ms| <= |actions|
    decreases |actions|
  {
    if |actions| == 0 then []
    else
      var n := |actions| - 1;
      var prev := Matches(comment, actions[..n]);
      if Fires(comment, actions[n]) then prev + [Match(n, actions[n])] else prev
  }

  /** `m` names a firing action of the list, at its position. */
  predicate IsMatchIn(comment: string, actions: seq<Action>, m: Match)
  {
    m.index < |actions| && m.action == actions[m.index] && Fires(comment, m.action)
  }

  /** Each match is a firing action, at its position in the list. */
  lemma {:induction false} MatchesSound(comment: string, actions: seq<Action>)
    ensures forall j :: 0 <= j < |Matches(comment, actions)| ==>
      IsMatchIn(comment, actions, Matches(comment, actions)[j])
    decreases |actions|
  {
    if |actions| > 0 {
      var n := |actions| - 1;
      MatchesSound(comment, actions[..n]);
      var prev := Matches(comment, actions[..n]);
      var ms := Matches(comment, actions);
      if Fires(comment, actions[n]) {
        assert ms == prev + [Match(n, actions[n])];
      } else {
        assert ms == prev;
      }
      forall j | 0 <= j < |ms| ensures IsMatchIn(comment, actions, ms[j]) {
        if j < |prev| {
          assert ms[j] == prev[j];
          assert IsMatchIn(comment, actions[..n], prev[j]);
          assert actions[..n][prev[j].index] == actions[prev[j].index];
        }
      }
    }
  }

  /** Matches come in list order, each action at most once. */
  lemma {:induction false} MatchesOrdered(comment: string, actions: seq<Action>)
    ensures forall j, k :: 0 <= j < k < |Matches(comment, actions)| ==>
      Matches(comment, actions)[j].index < Matches(comment, actions)[k].index
    decreases |actions|
  {
    if |actions| > 0 {
      var n := |actions| - 1;
      MatchesSound(comment, actions[..n]);
      MatchesOrdered(comment, actions[..n]);
      var prev := Matches(comment, actions[..n]);
      var ms := Matches(comment, actions);
      if Fires(comment, actions[n]) {
        assert ms == prev + [Match(n, actions[n])];
      } else {
        assert ms == prev;
      }
      forall j, k | 0 <= j < k < |ms| ensures ms[j].index < ms[k].index {
        assert ms[j] == prev[j];
        assert IsMatchIn(comment, actions[..n], prev[j]);
        if k < |prev| {
          assert ms[k] == prev[k];
          assert prev[j].index < prev[k].index;
        } else {
          assert ms[k].index == n;
        }
      }
    }
  }

  /** Every action that fires is matched, not only the first. */
  lemma {:induction false} MatchesComplete(comment: string, actions: seq<Action>, i: nat)
    requires i < |actions| && Fires(comment, actions[i])
    ensures exists j :: 0 <= j < |Matches(comment, actions)| && Matches(comment, actions)[j].index == i
    decreases |actions|
  {
    var n := |actions| - 1;
    var prev := Matches(comment, actions[..n]);
    if i == n {
      assert Matches(comment, actions)[|prev|].index == n;
    } else {
      assert actions[..n][i] == actions[i];
      MatchesComplete(comment, actions[..n], i);
      var j :| 0 <= j < |prev| && prev[j].index == i;
      assert Matches(comment, actions)[j] == prev[j];
    }
  }

  /** The rendered responses of a list of matches, match after match. */
  function Blocks(nickname: string, comment: string, ms: seq<Match>): seq<string>
    decreases |ms|
  {
    if |ms| == 0 then []
    else
      var n := |ms| - 1;
      var a := ms[n].action;
      Blocks(nickname, comment, ms[..n]) + RenderAll(a.responses, UserInput(comment, a.trigger), nickname)
  }

  /** The number of responses the matches carry. */
  function ResponseCount(ms: seq<Match>): nat
    decreases |ms|
  {
    if |ms| == 0 then 0
    else ResponseCount(ms[..|ms| - 1]) + |ms[|ms| - 1].action.responses|
  }

  // ---------------------------------------------------------------------------

  lemma AppendAssoc<T>(a: seq<T>, b: seq<T>, c: seq<T>)
    ensures (a + b) + c == a + (b + c)
  {
  }

  lemma AppendEmpty<T>(a: seq<T>)
    ensures a + [] == a && [] + a == a
  {
  }

  /** The replies of the first `i + 1` actions extend those of the first `i`. */
  lemma RepliesStep(nickname: string, comment: string, actions: seq<Action>, i: nat)
    requires i < |actions|
    ensures Replies(nickname, comment, actions[..i + 1])
         == Replies(nickname, comment, actions[..i]) + ActionReplies(nickname, comment, actions[i])
  {
    var front := actions[..i + 1];
    assert front[..i] == actions[..i];
    assert front[i] == actions[i];
  }

  /** Adding an action to the list adds its replies after those of the
      existing actions and changes nothing else that is sent. */
  lemma OutgoingAfterAdd(nickname: string, comment: string, actions: seq<Action>, a: Action)
    ensures Outgoing(nickname, comment, actions + [a], true)
         == Outgoing(nickname, comment, actions, true) + ActionReplies(nickname, comment, a)
  {
    var longer := actions + [a];
    assert longer[..|actions|] == actions;
    assert longer[|actions|] == a;
    AppendAssoc([Relay(nickname, comment)], Replies(nickname, comment, actions), ActionReplies(nickname, comment, a));
  }

  /** The replies are the matches' rendered responses, match after match:
      all firing actions contribute, in list order. */
  lemma {:induction false} RepliesAreMatchBlocks(nickname: string, comment: string, actions: seq<Action>)
    ensures Replies(nickname, comment, actions) == Blocks(nickname, comment, Matches(comment, actions))
    decreases |actions|
  {
    if |actions| > 0 {
      var n := |actions| - 1;
      RepliesAreMatchBlocks(nickname, comment, actions[..n]);
      if Fires(comment, actions[n]) {
        FiringBlock(nickname, comment, Matches(comment, actions[..n]), Match(n, actions[n]));
      } else {
        AppendEmpty(Replies(nickname, comment, actions[..n]));
      }
    }
  }

  /** A new match adds its rendered responses after the earlier blocks. */
  lemma FiringBlock(nickname: string, comment: string, prev: seq<Match>, m: Match)
    ensures Blocks(nickname, comment, prev + [m])
         == Blocks(nickname, comment, prev)
          + RenderAll(m.action.responses, UserInput(comment, m.action.trigger), nickname)
  {
    var ms := prev + [m];
    assert ms[..|prev|] == prev;
    assert ms[|prev|] == m;
  }

  lemma {:induction false} BlocksLength(nickname: string, comment: string, ms: seq<Match>)
    ensures |Blocks(nickname, comment, ms)| == ResponseCount(ms)
    decreases |ms|
  {
    if |ms| > 0 {
      BlocksLength(nickname, comment, ms[..|ms| - 1]);
    }
  }

  /** With a channel, one message is sent per response of every firing
      action, plus the relay line. */
  lemma OutgoingCount(nickname: string, comment: string, actions: seq<Action>)
    ensures |Outgoing(nickname, comment, actions, true)| == 1 + ResponseCount(Matches(comment, actions))
  {
    RepliesAreMatchBlocks(nickname, comment, actions);
    BlocksLength(nickname, comment, Matches(comment, actions));
  }

  lemma {:induction false} BlocksAt(nickname: string, comment: string, ms: seq<Match>, k: nat, j: nat)
    requires k < |ms| && j < |ms[k].action.responses|
    ensures ResponseCount(ms[..k]) + j < |Blocks(nickname, comment, ms)|
    ensures Blocks(nickname, comment, ms)[ResponseCount(ms[..k]) + j]
         == Render(ms[k].action.responses[j], UserInput(comment, ms[k].action.trigger), nickname)
    decreases |ms|, 1
  {
    if k == |ms| - 1 {
      BlocksAtLast(nickname, comment, ms, j);
    } else {
      BlocksAtEarlier(nickname, comment, ms, k, j);
    }
  }

  /** A response of an earlier match keeps its offset when a match is added. */
  lemma {:induction false} BlocksAtEarlier(nickname: string, comment: string, ms: seq<Match>, k: nat, j: nat)
    requires k + 1 < |ms| && j < |ms[k].action.responses|
    ensures ResponseCount(ms[..k]) + j < |Blocks(nickname, comment, ms)|
    ensures Blocks(nickname, comment, ms)[ResponseCount(ms[..k]) + j]
         == Render(ms[k].action.responses[j], UserInput(comment, ms[k].action.trigger), nickname)
    decreases |ms|, 0
  {
    var prev := ms[..|ms| - 1];
    var i := ResponseCount(ms[..k]) + j;
    assert prev[..k] == ms[..k];
    assert prev[k] == ms[k];
    BlocksAt(nickname, comment, prev, k, j);
    BlocksExtend(nickname, comment, ms, i);
  }

  /** The last match's responses follow the blocks of the earlier matches. */
  lemma BlocksAtLast(nickname: string, comment: string, ms: seq<Match>, j: nat)
    requires |ms| > 0 && j < |ms[|ms| - 1].action.responses|
    ensures ResponseCount(ms[..|ms| - 1]) + j < |Blocks(nickname, comment, ms)|
    ensures Blocks(nickname, comment, ms)[ResponseCount(ms[..|ms| - 1]) + j]
         == Render(ms[|ms| - 1].action.responses[j], UserInput(comment, ms[|ms| - 1].action.trigger), nickname)
  {
    var n := |ms| - 1;
    var a := ms[n].action;
    var pre := Blocks(nickname, comment, ms[..n]);
    var last := RenderAll(a.responses, UserInput(comment, a.trigger), nickname);
    assert Blocks(nickname, comment, ms) == pre + last;
    BlocksLength(nickname, comment, ms[..n]);
    RenderAllAt(a.responses, UserInput(comment, a.trigger), nickname, j);
    IndexAfter(pre, last, j);
  }

  lemma IndexAfter<T>(xs: seq<T>, ys: seq<T>, j: nat)
    requires j < |ys|
    ensures |xs| + j < |xs + ys| && (xs + ys)[|xs| + j] == ys[j]
  {
  }

  /** Adding a match leaves the earlier blocks where they were. */
  lemma BlocksExtend(nickname: string, comment: string, ms: seq<Match>, i: nat)
    requires |ms| > 0 && i < |Blocks(nickname, comment, ms[..|ms| - 1])|
    ensures i < |Blocks(nickname, comment, ms)|
    ensures Blocks(nickname, comment, ms)[i] == Blocks(nickname, comment, ms[..|ms| - 1])[i]
  {
  }

  /** Each firing action's responses are sent as one contiguous run, in their
      stored order: the `j`-th response of the `k`-th match is message number
      `1 + (responses of the earlier matches) + j`. */
  lemma OutgoingLayout(nickname: string, comment: string, actions: seq<Action>, k: nat, j: nat)
    requires k < |Matches(comment, actions)|
    requires j < |Matches(comment, actions)[k].action.responses|
    ensures var ms := Matches(comment, actions);
      var out := Outgoing(nickname, comment, actions, true);
      && 1 + ResponseCount(ms[..k]) + j < |out|
      && out[1 + ResponseCount(ms[..k]) + j]
         == Render(ms[k].action.responses[j], UserInput(comment, ms[k].action.trigger), nickname)
  {
    RepliesAreMatchBlocks(nickname, comment, actions);
    BlocksAt(nickname, comment, Matches(comment, actions), k, j);
  }

  /** The user input is the text after the trigger with surrounding white
      space removed: a trimmed remainder padded by blanks is recovered. */
  lemma UserInputOfPadded(trigger: string, lead: string, rest: string, trail: string)
    requires AllSpace(lead) && AllSpace(trail) && IsTrimmed(rest)
    ensures UserInput(trigger + lead + rest + trail, trigger) == rest
  {
    var comment := trigger + lead + rest + trail;
    assert comment[..|trigger|] == trigger;
    assert comment[|trigger|..] == lead + rest + trail;
    StripPadded(lead, rest, trail);
  }

  // ---------------------------------------------------------------------------
  // The request scenario: `!bsr abc rest` against `!bsr abc` -> `ok {userinput}`

  /** A firing action with one response contributes that response, rendered. */
  lemma RepliesOfOne(nickname: string, comment: string, a: Action)
    requires Fires(comment, a) && |a.responses| == 1
    ensures ActionReplies(nickname, comment, a)
         == [Render(a.responses[0], UserInput(comment, a.trigger), nickname)]
  {
    var rendered := RenderAll(a.responses, UserInput(comment, a.trigger), nickname);
    RenderAllAt(a.responses, UserInput(comment, a.trigger), nickname, 0);
    assert rendered == [rendered[0]];
  }

  lemma RequestInput(comment: string, trigger: string)
    requires comment == "!bsr abc rest" && trigger == "!bsr abc"
    ensures Fires(comment, Action(trigger, [], map[]))
    ensures UserInput(comment, trigger) == "rest"
  {
    assert AllSpace(" ");
    assert IsTrimmed("rest");
    assert trigger + " " + "rest" + "" == comment;
    UserInputOfPadded(trigger, " ", "rest", "");
    StartsWithIsPrefix(comment, trigger);
  }

  lemma RequestRender(template: string, userInput: string, nickname: string)
    requires template == "ok {userinput}" && userInput == "rest"
    ensures Render(template, userInput, nickname) == "ok rest"
  {
    assert template == "ok " + UserInputToken;
    ReplacePlainPrefix("ok ", UserInputToken, UserInputToken, userInput);
    ReplaceWhole(UserInputToken, userInput);
    assert "ok " + userInput == "ok rest";
    ReplaceChangesOnlyOccurrences("ok rest", UserNameToken, nickname);
  }

  /** A single firing action with one response: the relay line, then that
      response rendered. */
  lemma OutgoingOfOne(nickname: string, comment: string, a: Action, reply: string)
    requires Fires(comment, a) && |a.responses| == 1
    requires Render(a.responses[0], UserInput(comment, a.trigger), nickname) == reply
    ensures Outgoing(nickname, comment, [a], true) == [Relay(nickname, comment), reply]
  {
    RepliesOfOne(nickname, comment, a);
    OutgoingAfterAdd(nickname, comment, [], a);
    assert [] + [a] == [a];
  }

  /** The comment `!bsr abc rest` and the single action `!bsr abc` with the
      response `ok {userinput}`: chat gets the relay line, then `ok rest`. */
  lemma ScenarioRequest(nickname: string, comment: string, a: Action)
    requires comment == "!bsr abc rest"
    requires a == Action("!bsr abc", ["ok {userinput}"], map[])
    ensures Outgoing(nickname, comment, [a], true) == [Relay(nickname, comment), "ok rest"]
  {
    RequestInput(comment, a.trigger);
    RequestRender(a.responses[0], UserInput(comment, a.trigger), nickname);
    OutgoingOfOne(nickname, comment, a, "ok rest");
  }

  // ---------------------------------------------------------------------------
  // The handler as written: a loop over the actions and their responses

  /** The comment handler, step by step: the sends it performs, in order. */
  method OnComment(nickname: string, comment: string, actions: seq<Action>, hasChannel: bool)
    returns (sent: seq<string>)
    ensures sent == Outgoing(nickname, comment, actions, hasChannel)
  {
    sent := [];
    if hasChannel {
      sent := sent + [Relay(nickname, comment)];
    }
    HandlerStart(nickname, comment, actions, hasChannel, sent);
    var i := 0;
    while i < |actions|
      invariant 0 <= i <= |actions|
      invariant sent == Outgoing(nickname, comment, actions[..i], hasChannel)
    {
      ghost var before := sent;
      sent := HandleAction(actions[i], nickname, comment, hasChannel, sent);
      HandlerStep(nickname, comment, actions, i, hasChannel, before, sent);
      i := i + 1;
    }
    assert actions[..i] == actions;
  }

  /** Before the outer loop only the relay line, if anything, has been sent. */
  lemma HandlerStart(nickname: string, comment: string, actions: seq<Action>, hasChannel: bool, sent: seq<string>)
    requires hasChannel ==> sent == [] + [Relay(nickname, comment)]
    requires !hasChannel ==> sent == []
    ensures sent == Outgoing(nickname, comment, actions[..0], hasChannel)
  {
    assert actions[..0] == [];
    assert [] + [Relay(nickname, comment)] == [Relay(nickname, comment)] + [];
  }

  /** One round of the handler's outer loop extends what was sent so far by
      the replies of the next action. */
  lemma HandlerStep(nickname: string, comment: string, actions: seq<Action>, i: nat, hasChannel: bool,
                    before: seq<string>, after: seq<string>)
    requires i < |actions|
    requires before == Outgoing(nickname, comment, actions[..i], hasChannel)
    requires hasChannel && Fires(comment, actions[i]) ==>
      after == before + RenderAll(actions[i].responses, UserInput(comment, actions[i].trigger), nickname)
    requires !(hasChannel && Fires(comment, actions[i])) ==> after == before
    ensures after == Outgoing(nickname, comment, actions[..i + 1], hasChannel)
  {
    if hasChannel {
      RepliesStep(nickname, comment, actions, i);
      AppendAssoc([Relay(nickname, comment)], Replies(nickname, comment, actions[..i]),
                  ActionReplies(nickname, comment, actions[i]));
    }
  }

  /** One round of the outer loop: an action whose trigger starts the
      comment renders and sends its responses with the stripped rest of the
      comment as user input; any other action sends nothing. */
  method HandleAction(act: Action, nickname: string, comment: string, hasChannel: bool, sentBefore: seq<string>)
    returns (sent: seq<string>)
    ensures hasChannel && Fires(comment, act) ==>
      sent == sentBefore + RenderAll(act.responses, UserInput(comment, act.trigger), nickname)
    ensures !(hasChannel && Fires(comment, act)) ==> sent == sentBefore
  {
    sent := sentBefore;
    if StartsWith(comment, act.trigger) {
      var userInput := Strip(comment[|act.trigger|..]);
      sent := SendResponses(act.responses, userInput, nickname, hasChannel, sent);
    }
  }

  /** The inner loop of the handler: every response of one firing action is
      rendered and, when there is a channel, sent. */
  method SendResponses(responses: seq<string>, userInput: string, nickname: string, hasChannel: bool, sentBefore: seq<string>)
    returns (sent: seq<string>)
    ensures hasChannel ==> sent == sentBefore + RenderAll(responses, userInput, nickname)
    ensures !hasChannel ==> sent == sentBefore
  {
    sent := sentBefore;
    var j := 0;
    while j < |responses|
      invariant 0 <= j <= |responses|
      invariant hasChannel ==> sent + RenderAll(responses[j..], userInput, nickname)
                               == sentBefore + RenderAll(responses, userInput, nickname)
      invariant !hasChannel ==> sent == sentBefore
    {
      var out := Render(responses[j], userInput, nickname);
      assert responses[j..][1..] == responses[j + 1..];
      if hasChannel {
        sent := sent + [out];
      }
      j := j + 1;
    }
    assert sent + [] == sent;
  }
}

=== FILE: setup.dfy ===
/** The first-run setup wizard's save button, as a validator. */
module Setup {
  import opened Text
  import opened Wrappers
  import opened Config

  const MissingDataWarning: string := "Please fill all fields!"

  /** Saving the wizard: the three fields are stripped, and the configuration
      (with no actions yet) is written only when none of them is left empty.
      A saved configuration never sends the next start back to the wizard. */
  function SaveSetup(tiktokText: string, twitchText: string, tokenText: string): (r: Result<Settings, string>)
    ensures r.Success? <==> Strip(tiktokText) != [] && Strip(twitchText) != [] && Strip(tokenText) != []
    ensures r.Failure? ==> r.error == MissingDataWarning
    ensures r.Success? ==>
      && r.value.tiktokUsername == Strip(tiktokText)
      && r.value.twitchUsername == Strip(twitchText)
      && r.value.twitchToken == Strip(tokenText)
      && r.value.actions == []
      && !NeedsSetup(r.value)
  {
    var tik := Strip(tiktokText);
    var tw := Strip(twitchText);
    var tok := Strip(tokenText);
    if |tik| == 0 || |tw| == 0 || |tok| == 0 then Failure(MissingDataWarning)
    else Success(Settings(tik, tw, tok, []))
  }

  /** Every field of a saved configuration is already stripped, so saving the
      wizard again with the stored values reproduces the same configuration. */
  lemma SaveSetupStable(tiktokText: string, twitchText: string, tokenText: string)
    requires SaveSetup(tiktokText, twitchText, tokenText).Success?
    ensures var cfg := SaveSetup(tiktokText, twitchText, tokenText).value;
      SaveSetup(cfg.tiktokUsername, cfg.twitchUsername, cfg.twitchToken) == Success(cfg)
  {
    StripIdempotent(tiktokText);
    StripIdempotent(twitchText);
    StripIdempotent(tokenText);
  }

  /** The startup test is laxer than the wizard: a blank identifier, which the
      wizard refuses, does not send the bot back to setup. */
  lemma StartupAcceptsBlankIdentifier()
    ensures !NeedsSetup(Settings(" ", "streamer", "oauth:token", []))
    ensures SaveSetup(" ", "streamer", "oauth:token").Failure?
  {
    assert AllSpace(" ");
  }
}

=== FILE: template.dfy ===
/** Response templates: a stored response is rendered by two successive
    replace-all passes, first `{userinput}` and then `{username}`. */
module Template {
  import opened Text

  const UserInputToken: string := "{userinput}"
  const UserNameToken: string := "{username}"

  /** The text sent for one response template. The second pass also sees the
      text the first pass inserted, so a `{username}` typed by the commenter
      is replaced by their nickname as well. */
  function Render(template: string, userInput: string, nickname: string): string
  {
    Replace(Replace(template, UserInputToken, userInput), UserNameToken, nickname)
  }

  /** A template without either placeholder is sent verbatim, so unknown
      placeholders such as `{other}` pass through untouched. */
  lemma RenderPlain(template: string, userInput: string, nickname: string)
    requires !Contains(template, UserInputToken) && !Contains(template, UserNameToken)
    ensures Render(template, userInput, nickname) == template
  {
    ReplaceChangesOnlyOccurrences(template, UserInputToken, userInput);
    ReplaceChangesOnlyOccurrences(template, UserNameToken, nickname);
  }

  /** `{username}` alone renders to the nickname, whatever the user input is. */
  lemma RenderUserName(userInput: string, nickname: string)
    ensures Render(UserNameToken, userInput, nickname) == nickname
  {
    assert !Contains(UserNameToken, UserInputToken) by {
      forall i ensures !OccursAt(UserNameToken, UserInputToken, i) {
      }
    }
    ReplaceChangesOnlyOccurrences(UserNameToken, UserInputToken, userInput);
    ReplaceWhole(UserNameToken, nickname);
  }

  /** `{userinput}` alone renders to the user input, in which any
      `{username}` has in turn been replaced by the nickname. */
  lemma RenderUserInput(userInput: string, nickname: string)
    ensures Render(UserInputToken, userInput, nickname) == Replace(userInput, UserNameToken, nickname)
  {
    ReplaceWhole(UserInputToken, userInput);
  }

  /** The sequential-replace quirk on a concrete input: a commenter who types
      `{username}` as their input gets their own nickname echoed. */
  lemma RenderInjectedUserName(nickname: string)
    ensures Render(UserInputToken, UserNameToken, nickname) == nickname
  {
    RenderUserInput(UserNameToken, nickname);
    ReplaceWhole(UserNameToken, nickname);
  }
}

=== FILE: text.dfy ===
/** The Python string built-ins the bot relies on — str.isspace, str.strip,
    str.startswith, str.split, str.join and str.replace — as functions on
    `string` (a `seq<char>`), with the laws that connect them. They are total,
    except that split and replace need a non-empty pattern. */
module Text {

  /** Python's `str.isspace` on one character: the ASCII white space and
      separator controls, and the Unicode white-space code points. */
  predicate IsSpace(c: char)
  {
    || c == ' '
    || ('\t' <= c <= '\r')
    || ('\U{1C}' <= c <= '\U{1F}')
    || c == '\U{85}' || c == '\U{A0}' || c == '\U{1680}'
    || ('\U{2000}' <= c <= '\U{200A}')
    || c == '\U{2028}' || c == '\U{2029}' || c == '\U{202F}'
    || c == '\U{205F}' || c == '\U{3000}'
  }

  predicate AllSpace(s: string)
  {
    forall i :: 0 <= i < |s| ==> IsSpace(s[i])
  }

  /** Neither end of `s` is white space (vacuously true of the empty string). */
  predicate IsTrimmed(s: string)
  {
    |s| == 0 || (!IsSpace(s[0]) && !IsSpace(s[|s| - 1]))
  }

  /** Python's `s.startswith(prefix)`: exact and case-sensitive. */
  predicate StartsWith(s: string, prefix: string)
  {
    |prefix| <= |s| && forall i :: 0 <= i < |prefix| ==> s[i] == prefix[i]
  }

  /** `StartsWith` is the slice test `s[:len(prefix)] == prefix`. */
  lemma StartsWithIsPrefix(s: string, prefix: string)
    ensures StartsWith(s, prefix) <==> |prefix| <= |s| && s[..|prefix|] == prefix
  {
    if |prefix| <= |s| && s[..|prefix|] == prefix {
      forall i | 0 <= i < |prefix| ensures s[i] == prefix[i] {
        assert s[..|prefix|][i] == s[i];
      }
    }
  }

  /** `p` occurs in `s` starting at position `i`. */
  predicate OccursAt(s: string, p: string, i: int)
  {
    0 <= i && i + |p| <= |s| && s[i..i + |p|] == p
  }

  ghost predicate Contains(s: string, p: string)
  {
    exists i :: OccursAt(s, p, i)
  }

  /** Python's `s.lstrip()`: drops the leading white space. The result is a
      suffix of `s`; `StripLeftExact` says which one. */
  function StripLeft(s: string): (r: string)
    ensures |r| <= |s| && r == s[|s| - |r|..]
    decreases |s|
  {
    if |s| > 0 && IsSpace(s[0]) then StripLeft(s[1..]) else s
  }

  /** Python's `s.rstrip()`: drops the trailing white space. The result is a
      prefix of `s`; `StripRightExact` says which one. */
  function StripRight(s: string): (r: string)
    ensures |r| <= |s| && r == s[..|r|]
    decreases |s|
  {
    if |s| > 0 && IsSpace(s[|s| - 1]) then StripRight(s[..|s| - 1]) else s
  }

  /** `lstrip` removes exactly the leading white space: everything cut is
      white space and what is left does not start with white space. */
  lemma {:induction false} StripLeftExact(s: string)
    ensures forall i :: 0 <= i < |s| - |StripLeft(s)| ==> IsSpace(s[i])
    ensures |StripLeft(s)| > 0 ==> !IsSpace(StripLeft(s)[0])
    decreases |s|
  {
    if |s| > 0 && IsSpace(s[0]) {
      StripLeftExact(s[1..]);
      forall i | 1 <= i < |s| - |StripLeft(s)| ensures IsSpace(s[i]) {
        assert s[i] == s[1..][i - 1];
      }
    }
  }

  /** `rstrip` removes exactly the trailing white space. */
  lemma {:induction false} StripRightExact(s: string)
    ensures forall i :: |StripRight(s)| <= i < |s| ==> IsSpace(s[i])
    ensures |StripRight(s)| > 0 ==> !IsSpace(StripRight(s)[|StripRight(s)| - 1])
    decreases |s|
  {
    if |s| > 0 && IsSpace(s[|s| - 1]) {
      StripRightExact(s[..|s| - 1]);
      forall i | |StripRight(s)| <= i < |s| - 1 ensures IsSpace(s[i]) {
        assert s[i] == s[..|s| - 1][i];
      }
    }
  }

  /** Python's `s.strip()` with no argument: white space is cut from both ends,
      so neither end of the result is white space. `StripExact` says where
      the result sits in `s`. */
  function Strip(s: string): (r: string)
    ensures |r| <= |s|
    ensures IsTrimmed(r)
  {
    StripEnds(s);
    StripRight(StripLeft(s))
  }

  /** The result of `Strip` is the stretch of `s` that is left once white space
      is cut from both ends: it occurs in `s`, only white space surrounds it
      there, and it is empty exactly when `s` is all white space. */
  lemma StripExact(s: string)
    ensures exists i :: OccursAt(s, Strip(s), i) && AllSpace(s[..i]) && AllSpace(s[i + |Strip(s)|..])
    ensures Strip(s) == [] <==> AllSpace(s)
  {
    var i := |s| - |StripLeft(s)|;
    var r := StripRight(StripLeft(s));
    StripSpan(s);
    StripLead(s);
    StripTrail(s);
    StripEnds(s);
    assert Strip(s) == r;
    assert OccursAt(s, r, i) && AllSpace(s[..i]) && AllSpace(s[i + |r|..]);
  }

  lemma StripSpan(s: string)
    ensures OccursAt(s, StripRight(StripLeft(s)), |s| - |StripLeft(s)|)
  {
    var l := StripLeft(s);
    var r := StripRight(l);
    var i := |s| - |l|;
    SliceOfSuffix(s, i, |r|);
  }

  lemma SliceOfSuffix<T>(s: seq<T>, i: nat, n: nat)
    requires i + n <= |s|
    ensures s[i..][..n] == s[i..i + n]
  {
  }

  lemma StripLead(s: string)
    ensures AllSpace(s[..|s| - |StripLeft(s)|])
  {
    StripLeftExact(s);
    var i := |s| - |StripLeft(s)|;
    forall k | 0 <= k < i ensures IsSpace(s[..i][k]) {
      assert s[..i][k] == s[k];
    }
  }

  lemma StripTrail(s: string)
    ensures AllSpace(s[|s| - |StripLeft(s)| + |StripRight(StripLeft(s))|..])
  {
    var l := StripLeft(s);
    var r := StripRight(l);
    var i := |s| - |l|;
    StripRightExact(l);
    assert s[i..] == l;
    assert s[i + |r|..] == l[|r|..];
    forall k | 0 <= k < |l| - |r| ensures IsSpace(l[|r|..][k]) {
      assert l[|r|..][k] == l[|r| + k];
    }
  }

  lemma StripEnds(s: string)
    ensures IsTrimmed(StripRight(StripLeft(s)))
    ensures StripRight(StripLeft(s)) == [] <==> AllSpace(s)
  {
    var l := StripLeft(s);
    var r := StripRight(l);
    StripLeftExact(s);
    StripRightExact(l);
    if |l| > 0 {
      assert s[|s| - |l|] == l[0];
    }
    if r != [] {
      assert r[0] == l[0];
    }
  }

  /** Stripping adds no character. */
  lemma StripKeepsCharacters(s: string)
    ensures forall c :: c in Strip(s) ==> c in s
  {
    var r := Strip(s);
    var i := |s| - |StripLeft(s)|;
    StripSpan(s);
    assert s[i..i + |r|] == r;
    forall c | c in r ensures c in s {
      var k :| 0 <= k < |r| && r[k] == c;
      assert s[i..i + |r|][k] == s[i + k];
    }
  }

  /** Python's `s.split(sep)` for a non-empty separator: the pieces between
      the non-overlapping occurrences of `sep`, scanned left to right. There is
      always at least one piece. */
  function SplitOn(s: string, sep: string): (pieces: seq<string>)
    requires |sep| > 0
    ensures |pieces| > 0
    decreases |s|
  {
    if StartsWith(s, sep) then [""] + SplitOn(s[|sep|..], sep)
    else if |s| == 0 then [""]
    else
      var rest := SplitOn(s[1..], sep);
      [[s[0]] + rest[0]] + rest[1..]
  }

  /** Python's `sep.join(pieces)`. */
  function Join(pieces: seq<string>, sep: string): (r: string)
    ensures |pieces| > 0 ==> |pieces[0]| <= |r| && r[..|pieces[0]|] == pieces[0]
    ensures |pieces| > 1 ==> |r| >= |pieces[0]| + |sep| && r[|pieces[0]|..|pieces[0]| + |sep|] == sep
    decreases |pieces|
  {
    if |pieces| == 0 then ""
    else if |pieces| == 1 then pieces[0]
    else pieces[0] + sep + Join(pieces[1..], sep)
  }

  /** Python's `s.replace(pat, rep)` for a non-empty `pat`: every
      non-overlapping occurrence, found left to right, is replaced. */
  function Replace(s: string, pat: string, rep: string): (r: string)
    requires |pat| > 0
    ensures |rep| == |pat| ==> |r| == |s|
    decreases |s|
  {
    if StartsWith(s, pat) then rep + Replace(s[|pat|..], pat, rep)
    else if |s| == 0 then ""
    else [s[0]] + Replace(s[1..], pat, rep)
  }

  // ---------------------------------------------------------------------------
  // strip

  lemma {:induction false} StripLeftPadded(lead: string, u: string)
    requires AllSpace(lead)
    requires |u| == 0 || !IsSpace(u[0])
    ensures StripLeft(lead + u) == u
    decreases |lead|
  {
    if |lead| == 0 {
      assert lead + u == u;
    } else {
      assert (lead + u)[0] == lead[0];
      assert (lead + u)[1..] == lead[1..] + u;
      StripLeftPadded(lead[1..], u);
    }
  }

  lemma {:induction false} StripRightPadded(t: string, trail: string)
    requires AllSpace(trail)
    requires |t| == 0 || !IsSpace(t[|t| - 1])
    ensures StripRight(t + trail) == t
    decreases |trail|
  {
    if |trail| == 0 {
      assert t + trail == t;
    } else {
      var n := |trail| - 1;
      assert (t + trail)[|t + trail| - 1] == trail[n];
      assert (t + trail)[..|t + trail| - 1] == t + trail[..n];
      StripRightPadded(t, trail[..n]);
    }
  }

  /** Strip undoes padding: surrounding a trimmed string with white space on
      either side and stripping gives the string back. */
  lemma StripPadded(lead: string, t: string, trail: string)
    requires AllSpace(lead) && AllSpace(trail) && IsTrimmed(t)
    ensures Strip(lead + t + trail) == t
  {
    if |t| > 0 {
      assert lead + t + trail == lead + (t + trail);
      StripLeftPadded(lead, t + trail);
      StripRightPadded(t, trail);
    } else {
      assert lead + t + trail == lead + trail;
      assert AllSpace(lead + trail) by {
        forall i | 0 <= i < |lead + trail|
          ensures IsSpace((lead + trail)[i])
        {
          if i < |lead| {
            assert (lead + trail)[i] == lead[i];
          } else {
            assert (lead + trail)[i] == trail[i - |lead|];
          }
        }
      }
    }
  }

  /** Stripping twice is stripping once. */
  lemma StripIdempotent(s: string)
    ensures Strip(Strip(s)) == Strip(s)
  {
    StripPadded("", Strip(s), "");
    assert "" + Strip(s) + "" == Strip(s);
  }

  // ---------------------------------------------------------------------------
  // split and join

  lemma JoinConsChar(c: char, ps: seq<string>, sep: string)
    requires |ps| > 0
    ensures Join([[c] + ps[0]] + ps[1..], sep) == [c] + Join(ps, sep)
  {
    var qs := [[c] + ps[0]] + ps[1..];
    assert qs[0] == [c] + ps[0];
    assert qs[1..] == ps[1..];
  }

  /** Two or more pieces: the first, the separator, then the rest joined. */
  lemma JoinFirst(ps: seq<string>, sep: string)
    requires |ps| >= 2
    ensures Join(ps, sep) == ps[0] + sep + Join(ps[1..], sep)
  {
  }

  lemma HeadTail<T>(xs: seq<T>)
    requires |xs| > 0
    ensures [xs[0]] + xs[1..] == xs
  {
  }

  lemma JoinConsEmpty(ps: seq<string>, sep: string)
    requires |ps| > 0
    ensures Join([""] + ps, sep) == sep + Join(ps, sep)
  {
    var qs := [""] + ps;
    assert qs[0] == "" && qs[1..] == ps;
    assert "" + sep == sep;
  }

  /** Joining the pieces of a split with the same separator rebuilds the input. */
  lemma {:induction false} SplitThenJoin(s: string, sep: string)
    requires |sep| > 0
    ensures Join(SplitOn(s, sep), sep) == s
    decreases |s|
  {
    if StartsWith(s, sep) {
      SplitThenJoin(s[|sep|..], sep);
      SplitJoinAtSeparator(s, sep);
    } else if |s| > 0 {
      SplitThenJoin(s[1..], sep);
      SplitJoinAtChar(s, sep);
    }
  }

  lemma SplitJoinAtSeparator(s: string, sep: string)
    requires |sep| > 0 && StartsWith(s, sep)
    requires Join(SplitOn(s[|sep|..], sep), sep) == s[|sep|..]
    ensures Join(SplitOn(s, sep), sep) == s
  {
    var rest := SplitOn(s[|sep|..], sep);
    assert SplitOn(s, sep) == [""] + rest;
    JoinConsEmpty(rest, sep);
    PrefixThenRest(s, sep);
  }

  lemma SplitJoinAtChar(s: string, sep: string)
    requires |sep| > 0 && !StartsWith(s, sep) && |s| > 0
    requires Join(SplitOn(s[1..], sep), sep) == s[1..]
    ensures Join(SplitOn(s, sep), sep) == s
  {
    var rest := SplitOn(s[1..], sep);
    assert SplitOn(s, sep) == [[s[0]] + rest[0]] + rest[1..];
    JoinConsChar(s[0], rest, sep);
    HeadTail(s);
  }

  /** A string that starts with `p` is `p` followed by the rest. */
  lemma PrefixThenRest(s: string, p: string)
    requires StartsWith(s, p)
    ensures s == p + s[|p|..]
  {
    assert s[..|p|] == p;
  }

  /** A string free of the one-character separator `c` splits into itself. */
  lemma {:induction false} SplitWithoutSeparator(s: string, c: char)
    requires c !in s
    ensures SplitOn(s, [c]) == [s]
    decreases |s|
  {
    if |s| > 0 {
      assert c !in s[1..] by {
        forall k | 0 <= k < |s[1..]| ensures s[1..][k] != c {
          assert s[1..][k] == s[k + 1];
        }
      }
      SplitWithoutSeparator(s[1..], c);
      assert [s[0]] + s[1..] == s;
    }
  }

  /** No piece of a split on a one-character separator contains it. */
  lemma {:induction false} SplitPiecesAvoidSeparator(s: string, c: char)
    ensures forall k :: 0 <= k < |SplitOn(s, [c])| ==> c !in SplitOn(s, [c])[k]
    decreases |s|
  {
    if StartsWith(s, [c]) {
      SplitPiecesAvoidSeparator(s[1..], c);
      assert SplitOn(s, [c]) == [""] + SplitOn(s[1..], [c]);
    } else if |s| > 0 {
      SplitPiecesAvoidSeparator(s[1..], c);
      assert s[0] != c;
    }
  }

  /** No piece of a split contains the separator, whatever its length:
      every occurrence of `sep` in `s` is consumed by the split. */
  lemma {:induction false} SplitPiecesAvoidPattern(s: string, sep: string)
    requires |sep| > 0
    ensures forall k :: 0 <= k < |SplitOn(s, sep)| ==> !Contains(SplitOn(s, sep)[k], sep)
    decreases |s|
  {
    var pieces := SplitOn(s, sep);
    if StartsWith(s, sep) {
      var rest := SplitOn(s[|sep|..], sep);
      SplitPiecesAvoidPattern(s[|sep|..], sep);
      assert pieces == [""] + rest;
      forall k | 0 <= k < |pieces| ensures !Contains(pieces[k], sep) {
        if k > 0 {
          assert pieces[k] == rest[k - 1];
        }
      }
    } else if |s| > 0 {
      var rest := SplitOn(s[1..], sep);
      SplitPiecesAvoidPattern(s[1..], sep);
      SplitFirstPiece(s, sep);
      PrefixAvoids(s, pieces[0], sep);
      forall k | 1 <= k < |pieces| ensures !Contains(pieces[k], sep) {
        assert pieces[k] == rest[k];
      }
    }
  }

  /** The first piece of a split is a prefix of `s` before which no
      occurrence of `sep` starts. */
  lemma {:induction false} SplitFirstPiece(s: string, sep: string)
    requires |sep| > 0
    ensures |SplitOn(s, sep)[0]| <= |s|
    ensures s[..|SplitOn(s, sep)[0]|] == SplitOn(s, sep)[0]
    ensures forall j :: 0 <= j < |SplitOn(s, sep)[0]| ==> !OccursAt(s, sep, j)
    decreases |s|
  {
    if !StartsWith(s, sep) && |s| > 0 {
      var q := SplitOn(s[1..], sep)[0];
      SplitFirstPiece(s[1..], sep);
      FirstPieceStep(s, sep, q);
      assert SplitOn(s, sep)[0] == [s[0]] + q;
    }
  }

  /** Putting the first character in front of a prefix of the tail before
      which `sep` does not occur gives such a prefix of the whole text, as
      long as the text does not start with `sep`. */
  lemma FirstPieceStep(s: string, sep: string, q: string)
    requires |s| > 0 && !StartsWith(s, sep)
    requires |q| <= |s| - 1 && s[1..][..|q|] == q
    requires forall j :: 0 <= j < |q| ==> !OccursAt(s[1..], sep, j)
    ensures s[..|q| + 1] == [s[0]] + q
    ensures forall j :: 0 <= j < |q| + 1 ==> !OccursAt(s, sep, j)
  {
    assert s[..|q| + 1] == [s[0]] + s[1..][..|q|];
    forall j | 0 <= j < |q| + 1 ensures !OccursAt(s, sep, j) {
      OccursShift(s, sep, j);
    }
  }

  /** In a text that does not start with `sep`, every occurrence of `sep`
      is one of its tail's, moved one place to the right. */
  lemma OccursShift(s: string, sep: string, j: int)
    requires |s| > 0 && !StartsWith(s, sep)
    ensures OccursAt(s, sep, j) ==> j > 0 && OccursAt(s[1..], sep, j - 1)
  {
  }

  /** A prefix of `s` before which no occurrence of `sep` starts does not
      contain `sep`. */
  lemma PrefixAvoids(s: string, p: string, sep: string)
    requires |sep| > 0 && |p| <= |s| && s[..|p|] == p
    requires forall j :: 0 <= j < |p| ==> !OccursAt(s, sep, j)
    ensures !Contains(p, sep)
  {
    forall j | OccursAt(p, sep, j) ensures OccursAt(s, sep, j) {
      assert s[j..j + |sep|] == p[j..j + |sep|];
    }
  }

  /** A leading separator character closes an empty first piece. */
  lemma SplitLeading(s: string, c: char)
    requires |s| > 0 && s[0] == c
    ensures SplitOn(s, [c]) == [""] + SplitOn(s[1..], [c])
  {
    assert s[..1] == [c];
  }

  /** Any other leading character opens the first piece. */
  lemma SplitPlain(s: string, c: char)
    requires |s| > 0 && s[0] != c
    ensures SplitOn(s, [c]) == [[s[0]] + SplitOn(s[1..], [c])[0]] + SplitOn(s[1..], [c])[1..]
  {
    assert s[..1] != [c];
  }

  /** Splitting `a + c + b` on `c` splits `a` and `b` separately, in order. */
  lemma {:induction false} SplitAroundSeparator(a: string, c: char, b: string)
    ensures SplitOn(a + [c] + b, [c]) == SplitOn(a, [c]) + SplitOn(b, [c])
    decreases |a|
  {
    var s := a + [c] + b;
    if |a| == 0 {
      assert s[0] == c && s[1..] == b;
      SplitLeading(s, c);
      assert SplitOn(a, [c]) == [""];
    } else {
      SplitAroundSeparator(a[1..], c, b);
      assert s[0] == a[0];
      assert s[1..] == a[1..] + [c] + b;
      SplitSameStart(s, a, c, SplitOn(b, [c]));
    }
  }

  /** `s` and `a` start with the same character and their remainders split
      alike up to the pieces `more` added at the end: so do `s` and `a`. */
  lemma SplitSameStart(s: string, a: string, c: char, more: seq<string>)
    requires |s| > 0 && |a| > 0 && s[0] == a[0]
    requires SplitOn(s[1..], [c]) == SplitOn(a[1..], [c]) + more
    ensures SplitOn(s, [c]) == SplitOn(a, [c]) + more
  {
    if a[0] == c {
      SplitSameLeading(s, a, c, more);
    } else {
      SplitSamePlain(s, a, c, more);
    }
  }

  lemma SplitSameLeading(s: string, a: string, c: char, more: seq<string>)
    requires |s| > 0 && |a| > 0 && s[0] == c && a[0] == c
    requires SplitOn(s[1..], [c]) == SplitOn(a[1..], [c]) + more
    ensures SplitOn(s, [c]) == SplitOn(a, [c]) + more
  {
    SplitLeading(s, c);
    SplitLeading(a, c);
    ConsAssoc("", SplitOn(a[1..], [c]), more);
  }

  lemma ConsAssoc<T>(x: T, ys: seq<T>, zs: seq<T>)
    ensures [x] + (ys + zs) == ([x] + ys) + zs
  {
  }

  lemma SplitSamePlain(s: string, a: string, c: char, more: seq<string>)
    requires |s| > 0 && |a| > 0 && s[0] == a[0] && a[0] != c
    requires SplitOn(s[1..], [c]) == SplitOn(a[1..], [c]) + more
    ensures SplitOn(s, [c]) == SplitOn(a, [c]) + more
  {
    SplitPlain(s, c);
    SplitPlain(a, c);
    ExtendFirstPiece(a[0], SplitOn(a[1..], [c]), more);
  }

  /** Pieces after the first are unaffected by what is put in front. */
  lemma ExtendFirstPiece(x: char, rest: seq<string>, more: seq<string>)
    requires |rest| > 0
    ensures [[x] + (rest + more)[0]] + (rest + more)[1..] == ([[x] + rest[0]] + rest[1..]) + more
  {
    assert (rest + more)[0] == rest[0];
    assert (rest + more)[1..] == rest[1..] + more;
  }

  // ---------------------------------------------------------------------------
  // replace

  /** `s.replace(pat, rep)` equals `rep.join(s.split(pat))`: replacing is
      splitting on the pattern and joining with the replacement. */
  lemma {:induction false} ReplaceIsJoinOfSplit(s: string, pat: string, rep: string)
    requires |pat| > 0
    ensures Replace(s, pat, rep) == Join(SplitOn(s, pat), rep)
    decreases |s|
  {
    if StartsWith(s, pat) {
      var rest := SplitOn(s[|pat|..], pat);
      ReplaceIsJoinOfSplit(s[|pat|..], pat, rep);
      assert ([""] + rest)[1..] == rest;
    } else if |s| == 0 {
    } else {
      var rest := SplitOn(s[1..], pat);
      ReplaceIsJoinOfSplit(s[1..], pat, rep);
      JoinConsChar(s[0], rest, rep);
    }
  }

  /** Replacing a text by itself changes nothing. */
  lemma ReplaceWithItself(s: string, pat: string)
    requires |pat| > 0
    ensures Replace(s, pat, pat) == s
  {
    ReplaceIsJoinOfSplit(s, pat, pat);
    SplitThenJoin(s, pat);
  }

  lemma OccursAfterFirst(s: string, p: string, i: int)
    requires |s| > 0 && OccursAt(s[1..], p, i)
    ensures OccursAt(s, p, i + 1)
  {
    assert s[i + 1..i + 1 + |p|] == s[1..][i..i + |p|];
  }

  /** Replace only ever changes a string that contains the pattern; so a
      string without it comes back unchanged. */
  lemma {:induction false} ReplaceChangesOnlyOccurrences(s: string, pat: string, rep: string)
    requires |pat| > 0
    ensures Replace(s, pat, rep) != s ==> Contains(s, pat)
    decreases |s|
  {
    if StartsWith(s, pat) {
      assert OccursAt(s, pat, 0);
    } else if |s| > 0 {
      ReplaceChangesOnlyOccurrences(s[1..], pat, rep);
      if Replace(s[1..], pat, rep) != s[1..] {
        var i :| OccursAt(s[1..], pat, i);
        OccursAfterFirst(s, pat, i);
      } else {
        assert [s[0]] + s[1..] == s;
      }
    }
  }

  /** A character that cannot start the pattern is copied through. */
  lemma ReplaceSkipsChar(c: char, s: string, pat: string, rep: string)
    requires |pat| > 0 && c != pat[0]
    ensures Replace([c] + s, pat, rep) == [c] + Replace(s, pat, rep)
  {
    assert ([c] + s)[1..] == s;
    assert ([c] + s)[0] == c;
  }

  /** Text free of the pattern's first character is copied through. */
  lemma {:induction false} ReplacePlainPrefix(p: string, s: string, pat: string, rep: string)
    requires |pat| > 0 && pat[0] !in p
    ensures Replace(p + s, pat, rep) == p + Replace(s, pat, rep)
    decreases |p|
  {
    if |p| > 0 {
      assert p + s == [p[0]] + (p[1..] + s);
      ReplaceSkipsChar(p[0], p[1..] + s, pat, rep);
      ReplacePlainPrefix(p[1..], s, pat, rep);
      ConsAssoc(p[0], p[1..], Replace(s, pat, rep));
      HeadTail(p);
    } else {
      assert p + s == s;
    }
  }

  /** The pattern on its own becomes the replacement. */
  lemma ReplaceWhole(pat: string, rep: string)
    requires |pat| > 0
    ensures Replace(pat, pat, rep) == rep
  {
    assert StartsWith(pat, pat);
    assert pat[|pat|..] == "";
    assert rep + "" == rep;
  }
}

=== FILE: wrappers.dfy ===
/** Failure-carrying results: the Qt dialogs of the bot either accept their
    input or refuse it with a warning message. */
module Wrappers {

  /** A value that may be absent, e.g. "no list row selected" or "dialog cancelled". */
  datatype Option<+T> = None | Some(value: T)

  /** The outcome of a validating form: the accepted value, or the warning shown. */
  datatype Result<+R, +E> = Success(value: R) | Failure(error: E) {

    /** Forgets the warning: what a caller of `exec()` sees (accepted or not). */
    function ToOption(): (o: Option<R>)
      ensures Success? <==> o.Some?
      ensures Success? ==> o.value == value
    {
      match this
      case Success(v) => Some(v)
      case Failure(_) => None
    }
  }
}
